=== FILE: README.md ===
# Edit-session engine of a Tkinter/OpenCV image editor

This project models the core of a small desktop image editor. The editor
opens a bitmap, applies filters (grayscale, blur, edge detection,
brightness/contrast) and keeps a bounded undo/redo history. The model covers
three parts:

- **`HistoryManager`** (`history.dfy`). A two-stack undo/redo store over
  image snapshots, bounded by `max_states` (15 in the editor). Pushing an
  absent image changes nothing. Pushing a present image evicts the oldest
  snapshot when the bound is exceeded and always empties redo. Undo and redo swap the current image between the
  stacks.
- **`ImageModel`** (`image_model.py` → `image_model.dfy`). The original image,
  the current image and the file path. It has the `has_image` and
  `get_dimensions` queries and the `load` and `reset_to_original`
  transitions. It also has the integer parts of the processing methods: the
  odd-kernel rule of `apply_blur`, the `max(1, …)` size arithmetic of
  `resize_scale`, and the dispatch of `rotate`/`flip` with their fallback.
- **The session state of `ImageEditorApp`** (`app.py` → `editor.dfy`,
  `sessions.dfy`). These are the tool states: the blur level and base, the
  brightness/contrast levels and base, the scale level and base, and the edge
  flag. Each handler is one pure transition over a `Session` record. Blur and
  brightness/contrast are *live sessions*: each step recomputes the shown
  image from a frozen base, and a whole session costs one history entry.
  Edge detection is a one-shot commit guarded by a flag.

Images are immutable values (`Images.Img`: shape and samples). Every OpenCV
kernel (colour conversion, Gaussian blur, Canny, rotate, flip, resize) is a
field of a `Filters` record of plain functions. The caller passes that record
in, so no proof relies on what a kernel computes. The brightness/contrast
arithmetic is the one exception. It is modelled in exact integer arithmetic, with
the contrast factor held as a percentage: `clamp(100 + 8·level, 20, 400)`.
The file dialog's answer and the decoder's outcome are parameters of
`Editor.OpenImage`.

The main invariant is `Editor.Consistent`. It says:

- the history stays within its bound;
- `blur_level ≥ 0`, and `blur_level > 0` exactly when a blur base exists;
- at most one tool is away from rest;
- during a blur session the shown image is the base blurred with kernel side
  `2·level + 1`.

Every modelled handler keeps it, and so does every run of user actions
(`EditorRuns.Run`).

The model follows the code as written, including these details that are easy to get wrong:

- The brightness/contrast result is truncated to an integer sample (NumPy
  `astype(uint8)`), not rounded. Five contrast steps take the sample 200 to
  228, not 229 (`Tone.ContrastFiveStepsTruncates`).
- The brightness/contrast session pushes history on its first
  `_ensure_bc_session` call. That is not necessarily the first level change.
- `reset_to_original` without a loaded image does nothing; it raises no
  error.
- `resize_scale` truncates `side * percent / 100` toward zero, then raises
  the result to at least 1. It does not round.

## Model

| member | source | states |
|---|---|---|
| `Tone.ContrastPercent` | app.py:409-410 | the contrast factor, as a percentage: `100 + 8·level` inside `[20, 400]`, clamped to 20 below that range and to 400 above it |
| `Tone.AdjustSample` | app.py:412-414 | every output sample lies in `[0, 255]` |
| `Tone.AdjustSampleIsClippedFormula` | app.py:412-414 | the integer sample function equals the real formula `(p − 128)·c + 128 + b`, clipped to `[0, 255]` and truncated |
| `Tone.AdjustImage` | app.py:408-414 | the adjusted image keeps the base's shape and sample count; each sample is the base sample adjusted with offset `12·brightness` and the contrast percentage, and lies in `[0, 255]` |
| `Tone.BrightnessTwoStepsOnMidGray` | app.py:408-414 | two brightness steps take mid-gray 128 to 152 |
| `Tone.ContrastFiveStepsTruncates` | app.py:409-414 | five contrast steps give factor 1.4, and the sample 200 becomes 228 (228.8 truncated) |
| `HistoryManager.New` | history_manager.py:7-10 | a new history has both stacks empty, and it is valid exactly when the bound is non-negative |
| `HistoryManager.Clear` | history_manager.py:12-14 | both stacks become empty, the bound is kept, and validity is preserved |
| `HistoryManager.CanUndo` | history_manager.py:24-25 | holds exactly when the undo stack is non-empty |
| `HistoryManager.CanRedo` | history_manager.py:27-28 | holds exactly when the redo stack is non-empty |
| `HistoryManager.Push` | history_manager.py:16-22 | an absent image changes nothing; otherwise redo empties; below the bound the snapshot is appended; at or over the bound exactly index 0 is dropped; with a bound of at least 1 the snapshot is the new top; validity is preserved |
| `HistoryManager.Undo` | history_manager.py:24-34 | undo returns nothing exactly when the undo stack is empty, and then changes nothing; otherwise it returns the old top, drops it, and appends `cur` to redo; the total size and validity are preserved |
| `HistoryManager.Redo` | history_manager.py:27-40 | the mirror image of `Undo`: it returns nothing exactly when redo is empty; otherwise it returns redo's top and appends `cur` to undo |
| `HistoryManager.UndoThenRedo` | history_manager.py:30-40 | redoing with the image undo returned gives back `cur` and both stacks exactly |
| `HistoryManager.RedoThenUndo` | history_manager.py:30-40 | undoing with the image redo returned gives back `cur` and both stacks exactly |
| `HistoryManager.PushThenUndo` | history_manager.py:16-34 | the next undo returns the snapshot just pushed, and the redo stack holds only the image left |
| `HistoryManager.PushOnFullStackEvictsOldest` | history_manager.py:19-21 | a push on a full stack keeps the size at the bound and drops exactly the oldest snapshot |
| `ImageModel.New` | image_model.py:12-15 | a new model holds no original, no current image and no path |
| `ImageModel.HasImage` | image_model.py:18-19 | holds exactly when a current image is present |
| `ImageModel.GetDimensions` | image_model.py:27-31 | it returns nothing exactly when no image is loaded; otherwise it returns `(width, height)`, the swapped first two entries of the shape |
| `ImageModel.Load` | image_model.py:34-40 | an unreadable file is an error with the fixed message; a readable one sets the path and makes the original and the current image the image read |
| `ImageModel.SetCurrent` | image_model.py:42-43 | only the current image changes |
| `ImageModel.SetFilepath` | image_model.py:45-46 | only the path changes |
| `ImageModel.ResetToOriginal` | image_model.py:48-50 | without an original, nothing changes; otherwise the current image becomes the original; the original and the path never change |
| `ImageModel.BlurKernelSize` | image_model.py:57-60 | the kernel side is odd and at least 1; it is the intensity itself when that is odd and positive, the intensity plus one when it is even and at least 2, and 1 when the intensity is at most 1 |
| `ImageModel.Rotate` | image_model.py:75-82 | 90, 180 and 270 select the clockwise, half-turn and counter-clockwise codes; any other angle returns the current image |
| `ImageModel.Flip` | image_model.py:84-89 | "horizontal" selects flip code 1 and "vertical" code 0; any other mode returns the current image |
| `ImageModel.TruncDiv` | image_model.py:93-94 | Python's `int(a / b)` for positive `b`: the quotient truncated toward zero |
| `ImageModel.ScaledSide` | image_model.py:93-94 | a target side is at least 1; it is `⌊side·percent/100⌋` when `side·percent ≥ 100`, and 1 otherwise |
| `ImageModel.ResizeTarget` | image_model.py:91-94 | both target sides are at least 1 and come from the scaled width and height |
| `ImageModel.ResizeAtFullScaleKeepsSize` | image_model.py:91-94 | at 100 percent the target is the image's own size |
| `Editor.Init` | app.py:39-65 | the editor starts with no image, an empty history bounded by 15, every tool at rest, and the invariant holding |
| `Editor.ResetAllToolStates` | app.py:228-248 | every tool is at rest; the model and the history are untouched |
| `Editor.CancelOtherSessionsFor` | app.py:250-259 | every tool other than the named one is at rest; the named tool's state, the model and the history are untouched; at most one tool stays active |
| `Editor.ApplyAndShow` | app.py:223-226 | exactly one push, of the image being left; the new image becomes current; the original, the path and all tool states are untouched |
| `Editor.OpenImage` | app.py:262-276 | a cancelled dialog or an unreadable file changes nothing; a successful open loads the model, empties both stacks, keeps the bound and puts every tool at rest |
| `Editor.UndoAction` | app.py:320-330 | with no image or nothing to undo, nothing changes; otherwise the old undo top becomes current and every tool is at rest, with no push; the original and the path are kept |
| `Editor.RedoAction` | app.py:332-342 | the mirror image of `UndoAction`, using the redo stack |
| `Editor.ApplyGrayscale` | app.py:345-349 | with no image, nothing changes; otherwise one push of the pre-edit image, the grayscale image becomes current, and every tool (edge flag included) is at rest |
| `Editor.ApplyEdgesOnce` | app.py:351-358 | with no image or the flag set, nothing changes; otherwise one push, the edge image becomes current, the flag is set, and blur, brightness/contrast and scale are at rest |
| `Editor.BlurKernelSideIsNormalised` | app.py:369 | the session's side `2·level + 1` is already odd and at least 1, so `apply_blur`'s rule would leave it unchanged |
| `Editor.IncreaseBlur` | app.py:361-374 | leaving level 0 captures the current image as base and pushes it once; later steps push nothing; the shown image is the base blurred at the new level; the other tools are at rest; the invariant is kept |
| `Editor.DecreaseBlur` | app.py:376-394 | at level 0, nothing changes; stepping from 1 shows the base itself, drops it and leaves the other tools alone; deeper steps show the base blurred at the new level; no step pushes |
| `Editor.EnsureBcSession` | app.py:397-401 | without a base, the current image becomes the base and is pushed; with one, the base and the history are kept; the levels and the model are untouched; blur, scale and the edge flag are at rest |
| `Editor.ApplyBrightnessContrast` | app.py:403-416 | without a base, nothing changes; otherwise the current image is the base adjusted at the current levels, every sample lies in `[0, 255]`, and nothing but the current image changes |
| `EditorRuns.Step` | app.py:262-394 | every user action keeps the invariant and the history bound, and every action except open keeps the original and the path |
| `EditorRuns.Run` | app.py:262-394 | any sequence of actions keeps the invariant and the bound; without an open, the original and the path survive |
| `EditorRuns.ReachableSessionsAreConsistent` | app.py:39-65 | every reachable session has at most one active tool and at most 15 undo entries |
| `EditorRuns.BlurPressesStayAnchored` | app.py:361-394 | under blur presses the base stays the pre-session image, the level follows the clamped walk, and the history gains one push for each departure from level 0 |
| `EditorRuns.BlurSessionRecomputesFromBase` | app.py:364-392 | after any path of blur presses ending at level `n > 0`, the shown image is the pre-session image blurred with side `2n + 1`; ending at 0 shows the pre-session image itself |
| `EditorRuns.BlurPathIndependent` | app.py:369-392 | two press sequences that end at the same level show the same image and hold the same base |
| `EditorRuns.BlurUpThreeDownThreeRestoresImage` | app.py:361-387 | three steps up and three down restore the pre-session image exactly, with a single history push |
| `EditorRuns.EdgesTwiceIsEdgesOnce` | app.py:351-358 | two edge detections in a row equal one |
| `EditorRuns.EnsureBcSessionIdempotent` | app.py:397-401 | opening the brightness/contrast session twice equals opening it once, so only one push happens |
| `EditorRuns.BcRecomputesFromBase` | app.py:403-416 | re-applying brightness/contrast changes nothing, and the result depends only on the base and the levels |
| `EditorRuns.BcHelpersKeepConsistent` | app.py:397-416 | both brightness/contrast helpers keep the invariant |
| `EditorRuns.BcSessionCancelsBlurSession` | app.py:397-401 | starting brightness/contrast during a blur session ends the blur session and adds exactly one history entry |
| `EditorRuns.GrayscaleUndoRedo` | app.py:320-349 | undo after a grayscale commit restores the pre-edit image, and redo then restores the grayscale image |
| `EditorRuns.UndoActionThenRedoAction` | app.py:320-342 | undo then redo restores the image model and both stacks exactly |
| `EditorRuns.RedoActionThenUndoAction` | app.py:320-342 | redo then undo restores the image model and both stacks exactly |
| `EditorRuns.CommitAfterUndoClearsRedo` | app.py:223-226 | a commit made after an undo leaves nothing to redo |
| `EditorRuns.ResetRestoresLoadedImage` | app.py:262-272 | after a successful open and any actions other than open, resetting the model restores the image read and keeps the path |

## Left out

- The Tkinter surface is not modelled: menus, layout, `toggle_tools`, `_update_ui_state`, `_update_status`, `_show_image`, thumbnailing and message boxes. They are presentation only, and their redraws do not change the session state.
- `save_image`, `save_as_image`, `exit_app` and the file dialogs are not modelled because they are I/O. `ImageModel.SetFilepath` models the one state change `save_as_image` makes.
- The decoder (`cv2.imread`) is not modelled. The model takes its outcome, an image or nothing, as the `read` parameter.
- Exceptions raised by `_show_image` after a handler has already changed the state are not modelled. Exceptions are caught only in `open_image`, and a failed load there changes nothing.
- The pixel kernels (`cvtColor`, `GaussianBlur`, `Canny`, `rotate`, `flip`, `resize`) are uninterpreted functions in `Images.Filters`. `ToGrayscale`, `EdgeDetect`, `ApplyBlur` and `ResizeScale` only compose them, so they carry no postcondition of their own. `EdgeDetect` uses the source's default thresholds 50 and 150.
- `ImageModel.adjust_brightness_contrast` is not modelled because the editor never calls it.
- Tone.AdjustSample: is exact arithmetic on the integer percentage. It leaves out the float32/float64 rounding of `0.08·level` and of the per-sample product, which can move a result that sits exactly on an integer. For example, sample 28 at contrast level 1 and brightness 0 is 20 in the model, but in float32 `1.08·(−100)` rounds to about −108.0000076, so the source computes 19.9999924 and truncates it to 19.
- ImageModel.ScaledSide: is exact integer arithmetic. Python's float division, which loses precision once `side·percent` passes 2^53, is not modelled.
- NumPy `.copy()` is not modelled, and neither is array aliasing. With immutable values a copy is the identity.
- `_cancel_other_sessions_for` takes a string in the source. The model takes a `Tool` value for the four names the source uses. In the source an unknown name would reset every tool.
- app.py is cut off after line 416, so several handlers are absent: the brightness/contrast +/- handlers, the scale +/- handlers, and the app-level rotate, flip and reset handlers. They are not reconstructed. For that reason the scale state appears only as state that is reset, and the brightness/contrast levels are changed only by resets.
- HistoryManager.Undo and HistoryManager.Redo: take a present image (`cur: Img`). With `None` as the current image the source behaves in two ways that are not modelled. On an empty stack it returns `None` (history_manager.py:31-32, 37-38). On a non-empty stack it raises `AttributeError` on `current_img.copy()` (history_manager.py:33, 39). Both editor callers check for an image first (app.py:321, 333).
- ImageModel.ToGrayscale, ImageModel.EdgeDetect, ImageModel.ApplyBlur, ImageModel.Rotate, ImageModel.Flip, ImageModel.ResizeTarget and ImageModel.ResizeScale: require an image (for `Rotate` and `Flip`, only for the known angles and modes). Without one the source raises: the OpenCV call receives `None`, or `self._current.shape` raises `AttributeError` (image_model.py:92). That error path is not modelled. Every editor handler that calls them checks for an image first (app.py:346, 352).
- `EditorRuns.Event` covers only the user actions whose handlers are complete in the source: open, undo, redo, grayscale, edge detection, blur + and blur −. `_ensure_bc_session` and `_apply_brightness_contrast` are helpers of the missing handlers. They are covered by per-call lemmas, not by runs.
- `IncreaseBlur` and `DecreaseBlur` require a blur base whenever the level is non-zero and an image is loaded, and the invariant guarantees the base exists. Without one, `increase_blur` and `decrease_blur` at deeper levels raise in `GaussianBlur`. `decrease_blur` stepping from 1 first sets the current image to `None` (app.py:384) and then raises in `_show_image` (app.py:211), leaving that partial change behind. The model does not cover either failure. `EnsureBcSession` requires an image when no session is open, because the source would crash on `None.copy()`.

=== FILE: editor.dfy ===
/** The editor's session state and its handlers: the image model and the
    history, plus the state of the live tools. Blur and brightness/contrast
    are live sessions anchored to a frozen base image and recomputed from it
    on every step; edge detection is a one-shot guarded by a flag. Each
    handler is a pure transition from one session to the next. */
module Editor {
  import opened Options
  import opened Images
  import Tone
  import HistoryManager
  import ImageModel

  datatype Tool = BlurTool | BcTool | ScaleTool | EdgeTool

  datatype Session = Session(
    model: ImageModel.Model,
    history: HistoryManager.History,
    blurLevel: int,
    blurBase: Option<Img>,
    brightnessLevel: int,
    contrastLevel: int,
    bcBase: Option<Img>,
    scaleLevel: int,
    scaleBase: Option<Img>,
    edgeApplied: bool)

  // ---- tool state ----

  predicate BlurAtRest(s: Session) { s.blurLevel == 0 && s.blurBase.None? }

  predicate BcAtRest(s: Session) { s.brightnessLevel == 0 && s.contrastLevel == 0 && s.bcBase.None? }

  predicate ScaleAtRest(s: Session) { s.scaleLevel == 0 && s.scaleBase.None? }

  predicate AtRest(s: Session, t: Tool)
  {
    match t
    case BlurTool => BlurAtRest(s)
    case BcTool => BcAtRest(s)
    case ScaleTool => ScaleAtRest(s)
    case EdgeTool => !s.edgeApplied
  }

  /** Every tool at rest. */
  predicate ToolsAtRest(s: Session)
  {
    AtRest(s, BlurTool) && AtRest(s, BcTool) && AtRest(s, ScaleTool) && AtRest(s, EdgeTool)
  }

  /** `r` carries the same state as `s` for tool `t`. */
  predicate SameToolState(s: Session, r: Session, t: Tool)
  {
    match t
    case BlurTool => r.blurLevel == s.blurLevel && r.blurBase == s.blurBase
    case BcTool => r.brightnessLevel == s.brightnessLevel && r.contrastLevel == s.contrastLevel && r.bcBase == s.bcBase
    case ScaleTool => r.scaleLevel == s.scaleLevel && r.scaleBase == s.scaleBase
    case EdgeTool => r.edgeApplied == s.edgeApplied
  }

  /** The number of tools away from rest. */
  function ActiveTools(s: Session): nat
  {
    (if BlurAtRest(s) then 0 else 1) + (if BcAtRest(s) then 0 else 1)
    + (if ScaleAtRest(s) then 0 else 1) + (if s.edgeApplied then 1 else 0)
  }

  /** The blur level is a step count, and a base exists exactly while a blur
      session is under way. */
  predicate BlurInv(s: Session)
  {
    s.blurLevel >= 0 && (s.blurLevel > 0 <==> s.blurBase.Some?)
  }

  /** The invariant every modelled handler keeps: the history bound, the blur
      bookkeeping, and at most one tool active at a time. */
  predicate Valid(s: Session)
  {
    HistoryManager.Valid(s.history) && BlurInv(s) && ActiveTools(s) <= 1
  }

  /** The Gaussian kernel side for blur level `n`. */
  function BlurKernelSide(level: int): int
  {
    2 * level + 1
  }

  /** The blur session calls `GaussianBlur` directly and never goes through
      `apply_blur`; this relates the two paths: the session's side is one
      `apply_blur`'s kernel rule would leave as it is, odd and at least 1. */
  lemma BlurKernelSideIsNormalised(level: int)
    requires level >= 0
    ensures ImageModel.BlurKernelSize(BlurKernelSide(level)) == BlurKernelSide(level)
  {
  }

  /** During a blur session the shown image is the base blurred at the
      current level, not a blur of the previous step's output. */
  predicate BlurTracksBase(f: Filters, s: Session)
  {
    s.blurLevel > 0 ==> s.blurBase.Some? && s.model.current == Some(f.gaussianBlur(s.blurBase.value, BlurKernelSide(s.blurLevel)))
  }

  predicate Consistent(f: Filters, s: Session)
  {
    Valid(s) && BlurTracksBase(f, s)
  }

  /** The session the editor starts with: no image, empty history of the
      default bound, every tool at rest. */
  function Init(): (s: Session)
    ensures !ImageModel.HasImage(s.model) && s.model.original.None? && s.model.filepath.None?
    ensures s.history.undo == [] && s.history.redo == []
    ensures s.history.maxStates == HistoryManager.DefaultMaxStates
    ensures ToolsAtRest(s)
    ensures Valid(s)
  {
    Session(ImageModel.New(), HistoryManager.New(HistoryManager.DefaultMaxStates),
            0, None, 0, 0, None, 0, None, false)
  }

  function ResetBlurState(s: Session): Session { s.(blurLevel := 0, blurBase := None) }

  function ResetBcState(s: Session): Session { s.(brightnessLevel := 0, contrastLevel := 0, bcBase := None) }

  function ResetScaleState(s: Session): Session { s.(scaleLevel := 0, scaleBase := None) }

  function ResetEdgeState(s: Session): Session { s.(edgeApplied := false) }

  function ResetAllToolStates(s: Session): (r: Session)
    ensures ToolsAtRest(r)
    ensures r.model == s.model && r.history == s.history
    ensures HistoryManager.Valid(s.history) ==> Valid(r)
  {
    ResetEdgeState(ResetScaleState(ResetBcState(ResetBlurState(s))))
  }

  /** Puts every tool other than `t` at rest and leaves `t`'s state alone. */
  function CancelOtherSessionsFor(s: Session, t: Tool): (r: Session)
    ensures forall u :: u != t ==> AtRest(r, u)
    ensures SameToolState(s, r, t)
    ensures r.model == s.model && r.history == s.history
    ensures ActiveTools(r) <= 1
  {
    var s1 := if t != BlurTool then ResetBlurState(s) else s;
    var s2 := if t != BcTool then ResetBcState(s1) else s1;
    var s3 := if t != ScaleTool then ResetScaleState(s2) else s2;
    if t != EdgeTool then ResetEdgeState(s3) else s3
  }

  /** A one-shot commit: the image about to be left goes on the history,
      then the new image becomes current. */
  function ApplyAndShow(s: Session, img: Img): (r: Session)
    ensures r.history == HistoryManager.Push(s.history, s.model.current)
    ensures r.model.current == Some(img)
    ensures r.model.original == s.model.original && r.model.filepath == s.model.filepath
    ensures forall t :: SameToolState(s, r, t)
  {
    s.(history := HistoryManager.Push(s.history, s.model.current),
       model := ImageModel.SetCurrent(s.model, Some(img)))
  }

  // ---- file menu ----

  /** `path` is the dialog's answer (empty when cancelled) and `read` what
      the decoder returned for it. A cancelled dialog or an unreadable file
      leaves the session as it was; a successful load starts afresh. */
  function OpenImage(s: Session, path: string, read: Option<Img>): (r: Session)
    ensures path == "" || read.None? ==> r == s
    ensures path != "" && read.Some? ==>
      && r.model == ImageModel.Model(read, read, Some(path))
      && r.history.undo == [] && r.history.redo == []
      && r.history.maxStates == s.history.maxStates
      && ToolsAtRest(r)
    ensures Valid(s) ==> Valid(r)
  {
    if path == "" then s
    else
      match ImageModel.Load(path, read)
      case Err(_) => s
      case Ok(m) => ResetAllToolStates(s.(model := m, history := HistoryManager.Clear(s.history)))
  }

  // ---- edit menu ----

  /** Without an image or without anything to undo, nothing changes.
      Otherwise the top snapshot becomes current, the image left goes on the
      redo stack, and every tool returns to rest; nothing is pushed. */
  function UndoAction(s: Session): (r: Session)
    ensures !ImageModel.HasImage(s.model) || !HistoryManager.CanUndo(s.history) ==> r == s
    ensures ImageModel.HasImage(s.model) && HistoryManager.CanUndo(s.history) ==>
      && r.model.current == Some(s.history.undo[|s.history.undo| - 1])
      && r.history == HistoryManager.Undo(s.history, s.model.current.value).0
      && ToolsAtRest(r)
    ensures r.model.original == s.model.original && r.model.filepath == s.model.filepath
    ensures Valid(s) ==> Valid(r)
  {
    if !ImageModel.HasImage(s.model) || !HistoryManager.CanUndo(s.history) then s
    else
      var popped := HistoryManager.Undo(s.history, s.model.current.value);
      var m := if popped.1.Some? then ImageModel.SetCurrent(s.model, popped.1) else s.model;
      ResetAllToolStates(s.(history := popped.0, model := m))
  }

  /** The mirror image of `UndoAction`. */
  function RedoAction(s: Session): (r: Session)
    ensures !ImageModel.HasImage(s.model) || !HistoryManager.CanRedo(s.history) ==> r == s
    ensures ImageModel.HasImage(s.model) && HistoryManager.CanRedo(s.history) ==>
      && r.model.current == Some(s.history.redo[|s.history.redo| - 1])
      && r.history == HistoryManager.Redo(s.history, s.model.current.value).0
      && ToolsAtRest(r)
    ensures r.model.original == s.model.original && r.model.filepath == s.model.filepath
    ensures Valid(s) ==> Valid(r)
  {
    if !ImageModel.HasImage(s.model) || !HistoryManager.CanRedo(s.history) then s
    else
      var popped := HistoryManager.Redo(s.history, s.model.current.value);
      var m := if popped.1.Some? then ImageModel.SetCurrent(s.model, popped.1) else s.model;
      ResetAllToolStates(s.(history := popped.0, model := m))
  }

  // ---- one-shot tools ----

  /** Commits the grayscale image with one history push and puts every tool,
      the edge flag included, at rest. */
  function ApplyGrayscale(f: Filters, s: Session): (r: Session)
    ensures !ImageModel.HasImage(s.model) ==> r == s
    ensures ImageModel.HasImage(s.model) ==>
      && r.history == HistoryManager.Push(s.history, s.model.current)
      && r.model.current == Some(ImageModel.ToGrayscale(f, s.model))
      && ToolsAtRest(r)
    ensures r.model.original == s.model.original && r.model.filepath == s.model.filepath
    ensures Valid(s) ==> Valid(r)
  {
    if !ImageModel.HasImage(s.model) then s
    else ResetAllToolStates(ApplyAndShow(s, ImageModel.ToGrayscale(f, s.model)))
  }

  /** Commits the edge image once: while the flag is set it does nothing.
      It sets the flag and puts blur, brightness/contrast and scale at rest. */
  function ApplyEdgesOnce(f: Filters, s: Session): (r: Session)
    ensures !ImageModel.HasImage(s.model) || s.edgeApplied ==> r == s
    ensures ImageModel.HasImage(s.model) && !s.edgeApplied ==>
      && r.history == HistoryManager.Push(s.history, s.model.current)
      && r.model.current == Some(ImageModel.EdgeDetect(f, s.model))
      && r.edgeApplied
      && BlurAtRest(r) && BcAtRest(r) && ScaleAtRest(r)
    ensures r.model.original == s.model.original && r.model.filepath == s.model.filepath
    ensures Valid(s) ==> Valid(r)
  {
    if !ImageModel.HasImage(s.model) || s.edgeApplied then s
    else CancelOtherSessionsFor(ApplyAndShow(s, ImageModel.EdgeDetect(f, s.model)).(edgeApplied := true), EdgeTool)
  }

  // ---- blur session ----

  /** One blur step up. Leaving level 0 captures the current image as the
      base and pushes it, the one history entry of the session; later steps
      push nothing. The shown image is always the base blurred at the new
      level, and the other tools are put at rest. */
  function IncreaseBlur(f: Filters, s: Session): (r: Session)
    requires ImageModel.HasImage(s.model) && s.blurLevel != 0 ==> s.blurBase.Some?
    ensures !ImageModel.HasImage(s.model) ==> r == s
    ensures ImageModel.HasImage(s.model) ==>
      && r.blurLevel == s.blurLevel + 1
      && r.blurBase == (if s.blurLevel == 0 then s.model.current else s.blurBase)
      && r.history == (if s.blurLevel == 0 then HistoryManager.Push(s.history, s.model.current) else s.history)
      && r.model.current == Some(f.gaussianBlur(r.blurBase.value, BlurKernelSide(r.blurLevel)))
      && BcAtRest(r) && ScaleAtRest(r) && !r.edgeApplied
    ensures r.model.original == s.model.original && r.model.filepath == s.model.filepath
    ensures Valid(s) ==> Valid(r)
  {
    if !ImageModel.HasImage(s.model) then s
    else
      var base := if s.blurLevel == 0 then s.model.current else s.blurBase;
      var history := if s.blurLevel == 0 then HistoryManager.Push(s.history, s.model.current) else s.history;
      var level := s.blurLevel + 1;
      var blurred := f.gaussianBlur(base.value, BlurKernelSide(level));
      CancelOtherSessionsFor(
        s.(blurBase := base, history := history, blurLevel := level,
           model := ImageModel.SetCurrent(s.model, Some(blurred))),
        BlurTool)
  }

  /** One blur step down; nothing at level 0. Stepping from 1 to 0 ends the
      session: the base itself becomes current again and is dropped, and the
      other tools are left alone. Any other step shows the base blurred at
      the new level and puts the other tools at rest. No step pushes history. */
  function DecreaseBlur(f: Filters, s: Session): (r: Session)
    requires ImageModel.HasImage(s.model) && s.blurLevel != 0 ==> s.blurBase.Some?
    ensures !ImageModel.HasImage(s.model) || s.blurLevel == 0 ==> r == s
    ensures ImageModel.HasImage(s.model) && s.blurLevel == 1 ==>
      && r.model.current == s.blurBase
      && r.blurLevel == 0 && r.blurBase.None?
      && SameToolState(s, r, BcTool) && SameToolState(s, r, ScaleTool) && SameToolState(s, r, EdgeTool)
    ensures ImageModel.HasImage(s.model) && s.blurLevel != 0 && s.blurLevel != 1 ==>
      && r.blurLevel == s.blurLevel - 1
      && r.blurBase == s.blurBase
      && r.model.current == Some(f.gaussianBlur(s.blurBase.value, BlurKernelSide(r.blurLevel)))
      && BcAtRest(r) && ScaleAtRest(r) && !r.edgeApplied
    ensures r.history == s.history
    ensures r.model.original == s.model.original && r.model.filepath == s.model.filepath
    ensures Valid(s) ==> Valid(r)
    ensures Valid(s) && BlurTracksBase(f, s) ==> BlurTracksBase(f, r)
  {
    if !ImageModel.HasImage(s.model) || s.blurLevel == 0 then s
    else
      var level := s.blurLevel - 1;
      if level == 0 then
        s.(blurLevel := 0, model := ImageModel.SetCurrent(s.model, s.blurBase), blurBase := None)
      else
        var blurred := f.gaussianBlur(s.blurBase.value, BlurKernelSide(level));
        CancelOtherSessionsFor(
          s.(blurLevel := level, model := ImageModel.SetCurrent(s.model, Some(blurred))),
          BlurTool)
  }

  // ---- brightness/contrast session ----

  /** Opens the brightness/contrast session if none is under way: the
      current image becomes the base and is pushed. An open session is kept
      as it is. Either way blur, scale and the edge flag are put at rest. */
  function EnsureBcSession(s: Session): (r: Session)
    requires s.bcBase.None? ==> ImageModel.HasImage(s.model)
    ensures s.bcBase.None? ==> r.bcBase == s.model.current && r.history == HistoryManager.Push(s.history, s.model.current)
    ensures s.bcBase.Some? ==> r.bcBase == s.bcBase && r.history == s.history
    ensures r.brightnessLevel == s.brightnessLevel && r.contrastLevel == s.contrastLevel
    ensures r.model == s.model
    ensures BlurAtRest(r) && ScaleAtRest(r) && !r.edgeApplied
    ensures Valid(s) ==> Valid(r)
  {
    var s1 := if s.bcBase.None? then s.(bcBase := s.model.current, history := HistoryManager.Push(s.history, s.model.current)) else s;
    CancelOtherSessionsFor(s1, BcTool)
  }

  /** Shows the base adjusted at the current levels; nothing without a
      session. The result depends on the base and the levels alone, every
      sample lies in `[0, 255]`, and neither the history nor any tool state
      changes. */
  function ApplyBrightnessContrast(s: Session): (r: Session)
    ensures s.bcBase.None? ==> r == s
    ensures s.bcBase.Some? ==>
      && r.model.current == Some(Tone.AdjustImage(s.bcBase.value, s.brightnessLevel, s.contrastLevel))
      && (forall i :: 0 <= i < |r.model.current.value.samples| ==> 0 <= r.model.current.value.samples[i] <= 255)
      && r == s.(model := r.model)
    ensures r.model.original == s.model.original && r.model.filepath == s.model.filepath
    ensures Valid(s) ==> Valid(r)
  {
    if s.bcBase.None? then s
    else
      var img := Tone.AdjustImage(s.bcBase.value, s.brightnessLevel, s.contrastLevel);
      s.(model := ImageModel.SetCurrent(s.model, Some(img)))
  }
}

=== FILE: history.dfy ===
/** The bounded two-stack undo/redo store. The last element of each stack is
    its top; index 0 of the undo stack is the oldest snapshot. */
module HistoryManager {
  import opened Options
  import opened Images

  /** The bound the editor constructs its history with. */
  const DefaultMaxStates := 15

  datatype History = History(undo: seq<Img>, redo: seq<Img>, maxStates: int)

  /** The stacks together never hold more than `maxStates` snapshots. */
  predicate Valid(h: History)
  {
    |h.undo| + |h.redo| <= h.maxStates
  }

  predicate CanUndo(h: History)
    ensures CanUndo(h) <==> h.undo != []
  {
    |h.undo| > 0
  }

  predicate CanRedo(h: History)
    ensures CanRedo(h) <==> h.redo != []
  {
    |h.redo| > 0
  }

  function New(maxStates: int): (h: History)
    ensures h.undo == [] && h.redo == [] && h.maxStates == maxStates
    ensures Valid(h) <==> maxStates >= 0
  {
    History([], [], maxStates)
  }

  function Clear(h: History): (r: History)
    ensures r.undo == [] && r.redo == [] && r.maxStates == h.maxStates
    ensures Valid(h) ==> Valid(r)
  {
    History([], [], h.maxStates)
  }

  /** Records the state about to be left. An absent image is ignored;
      otherwise the snapshot goes on top of the undo stack, the oldest
      snapshot is evicted when the bound is exceeded, and redo is emptied. */
  function Push(h: History, img: Option<Img>): (r: History)
    ensures img.None? ==> r == h
    ensures img.Some? ==> r.redo == [] && r.maxStates == h.maxStates
    ensures img.Some? && |h.undo| < h.maxStates ==> r.undo == h.undo + [img.value]
    ensures img.Some? && 1 <= |h.undo| && h.maxStates <= |h.undo| ==> r.undo == h.undo[1..] + [img.value]
    ensures img.Some? && h.maxStates >= 1 ==> CanUndo(r) && r.undo[|r.undo| - 1] == img.value
    ensures Valid(h) ==> Valid(r)
  {
    match img
    case None => h
    case Some(x) =>
      var u := h.undo + [x];
      History(if |u| > h.maxStates then u[1..] else u, [], h.maxStates)
  }

  /** Pops the top of the undo stack and files `cur` on the redo stack;
      returns `None` and changes nothing when there is nothing to undo. */
  function Undo(h: History, cur: Img): (r: (History, Option<Img>))
    ensures r.1.None? <==> !CanUndo(h)
    ensures !CanUndo(h) ==> r.0 == h
    ensures CanUndo(h) ==>
      && r.1 == Some(h.undo[|h.undo| - 1])
      && r.0.undo == h.undo[..|h.undo| - 1]
      && r.0.redo == h.redo + [cur]
      && r.0.maxStates == h.maxStates
    ensures |r.0.undo| + |r.0.redo| == |h.undo| + |h.redo|
    ensures Valid(h) ==> Valid(r.0)
  {
    if !CanUndo(h) then (h, None)
    else
      var n := |h.undo| - 1;
      (History(h.undo[..n], h.redo + [cur], h.maxStates), Some(h.undo[n]))
  }

  /** The mirror image of `Undo`. */
  function Redo(h: History, cur: Img): (r: (History, Option<Img>))
    ensures r.1.None? <==> !CanRedo(h)
    ensures !CanRedo(h) ==> r.0 == h
    ensures CanRedo(h) ==>
      && r.1 == Some(h.redo[|h.redo| - 1])
      && r.0.redo == h.redo[..|h.redo| - 1]
      && r.0.undo == h.undo + [cur]
      && r.0.maxStates == h.maxStates
    ensures |r.0.undo| + |r.0.redo| == |h.undo| + |h.redo|
    ensures Valid(h) ==> Valid(r.0)
  {
    if !CanRedo(h) then (h, None)
    else
      var n := |h.redo| - 1;
      (History(h.undo + [cur], h.redo[..n], h.maxStates), Some(h.redo[n]))
  }

  /** Undoing and then redoing with the returned snapshot gives back `cur`
      and both stacks exactly. */
  lemma UndoThenRedo(h: History, cur: Img)
    requires CanUndo(h)
    ensures Undo(h, cur).1.Some?
    ensures Redo(Undo(h, cur).0, Undo(h, cur).1.value) == (h, Some(cur))
  {
    var n := |h.undo| - 1;
    assert h.undo[..n] + [h.undo[n]] == h.undo;
  }

  /** Redoing and then undoing with the returned snapshot gives back `cur`
      and both stacks exactly. */
  lemma RedoThenUndo(h: History, cur: Img)
    requires CanRedo(h)
    ensures Redo(h, cur).1.Some?
    ensures Undo(Redo(h, cur).0, Redo(h, cur).1.value) == (h, Some(cur))
  {
    var n := |h.redo| - 1;
    assert h.redo[..n] + [h.redo[n]] == h.redo;
  }

  /** The snapshot a push records is the one the next undo returns, and the
      image undone from lands alone on the redo stack. */
  lemma PushThenUndo(h: History, before: Img, after: Img)
    requires h.maxStates >= 1
    ensures Undo(Push(h, Some(before)), after).1 == Some(before)
    ensures Undo(Push(h, Some(before)), after).0.redo == [after]
  {
  }

  /** Once the undo stack is full, a push drops exactly the oldest snapshot
      and keeps the stack at the bound. */
  lemma PushOnFullStackEvictsOldest(h: History, img: Img)
    requires Valid(h) && h.maxStates >= 1 && |h.undo| == h.maxStates
    ensures |Push(h, Some(img)).undo| == h.maxStates
    ensures Push(h, Some(img)).undo[0] == if h.maxStates == 1 then img else h.undo[1]
    ensures Push(h, Some(img)).undo[..h.maxStates - 1] == h.undo[1..]
  {
  }
}

=== FILE: image_model.dfy ===
/** The image model: the image as loaded, the image being edited, and the
    file it came from, with the processing methods that derive a new image
    from the current one without changing the model. */
module ImageModel {
  import opened Options
  import opened Images

  const ReadError := "Unsupported file or cannot read image."
  const EdgeLow := 50
  const EdgeHigh := 150

  datatype Model = Model(original: Option<Img>, current: Option<Img>, filepath: Option<string>)

  function New(): (m: Model)
    ensures m.original.None? && m.current.None? && m.filepath.None?
  {
    Model(None, None, None)
  }

  /** Whether an image is loaded: the current image is the one test. */
  predicate HasImage(m: Model)
    ensures HasImage(m) <==> m.current != None
  {
    m.current.Some?
  }

  /** `(width, height)`: the first two entries of the array shape, swapped. */
  function GetDimensions(m: Model): (d: Option<(nat, nat)>)
    ensures d.None? <==> !HasImage(m)
    ensures HasImage(m) ==> d.value.0 == m.current.value.width && d.value.1 == m.current.value.height
  {
    match m.current
    case None => None
    case Some(img) => Some((img.width, img.height))
  }

  /** Loading `path`, where `read` is what the decoder returned for it. An
      unreadable file raises, so the caller keeps its model; a readable one
      replaces all three fields. */
  function Load(path: string, read: Option<Img>): (r: Result<Model>)
    ensures r.Err? <==> read.None?
    ensures r.Err? ==> r.message == ReadError
    ensures r.Ok? ==> HasImage(r.value)
    ensures r.Ok? ==> r.value.filepath == Some(path) && r.value.original == read && r.value.current == read
  {
    match read
    case None => Err(ReadError)
    case Some(img) => Ok(Model(Some(img), Some(img), Some(path)))
  }

  function SetCurrent(m: Model, img: Option<Img>): (r: Model)
    ensures r.current == img
    ensures r.original == m.original && r.filepath == m.filepath
  {
    m.(current := img)
  }

  function SetFilepath(m: Model, path: string): (r: Model)
    ensures r.filepath == Some(path)
    ensures r.original == m.original && r.current == m.current
  {
    m.(filepath := Some(path))
  }

  /** Brings back the loaded image; does nothing when none was loaded. */
  function ResetToOriginal(m: Model): (r: Model)
    ensures m.original.None? ==> r == m
    ensures m.original.Some? ==> r.current == m.original
    ensures r.original == m.original && r.filepath == m.filepath
  {
    if m.original.Some? then m.(current := m.original) else m
  }

  function ToGrayscale(f: Filters, m: Model): Img
    requires HasImage(m)
  {
    f.grayToBgr(f.bgrToGray(m.current.value))
  }

  function EdgeDetect(f: Filters, m: Model): Img
    requires HasImage(m)
  {
    f.grayToBgr(f.canny(f.bgrToGray(m.current.value), EdgeLow, EdgeHigh))
  }

  /** The Gaussian kernel side for a requested intensity: raised to 1 and
      then to the next odd number. */
  function BlurKernelSize(intensity: int): (k: int)
    ensures k >= 1 && k % 2 == 1
    ensures intensity >= 1 && intensity % 2 == 1 ==> k == intensity
    ensures intensity >= 2 && intensity % 2 == 0 ==> k == intensity + 1
    ensures intensity <= 1 ==> k == 1
  {
    var k := if intensity > 1 then intensity else 1;
    if k % 2 == 0 then k + 1 else k
  }

  function ApplyBlur(f: Filters, m: Model, intensity: int): Img
    requires HasImage(m)
  {
    f.gaussianBlur(m.current.value, BlurKernelSize(intensity))
  }

  /** Dispatch on the angle; any other angle hands back the current image. */
  function Rotate(f: Filters, m: Model, angle: int): (r: Option<Img>)
    requires angle in {90, 180, 270} ==> HasImage(m)
    ensures angle !in {90, 180, 270} ==> r == m.current
    ensures angle == 90 ==> r == Some(f.rotate(m.current.value, Clockwise90))
    ensures angle == 180 ==> r == Some(f.rotate(m.current.value, Rotate180))
    ensures angle == 270 ==> r == Some(f.rotate(m.current.value, CounterClockwise90))
  {
    if angle == 90 then Some(f.rotate(m.current.value, Clockwise90))
    else if angle == 180 then Some(f.rotate(m.current.value, Rotate180))
    else if angle == 270 then Some(f.rotate(m.current.value, CounterClockwise90))
    else m.current
  }

  /** Dispatch on the mode: flip code 1 mirrors left-right, 0 top-bottom;
      any other mode hands back the current image. */
  function Flip(f: Filters, m: Model, mode: string): (r: Option<Img>)
    requires mode == "horizontal" || mode == "vertical" ==> HasImage(m)
    ensures mode != "horizontal" && mode != "vertical" ==> r == m.current
    ensures mode == "horizontal" ==> r == Some(f.flip(m.current.value, 1))
    ensures mode == "vertical" ==> r == Some(f.flip(m.current.value, 0))
  {
    if mode == "horizontal" then Some(f.flip(m.current.value, 1))
    else if mode == "vertical" then Some(f.flip(m.current.value, 0))
    else m.current
  }

  /** Python's `int(a / b)` for a positive `b`: the quotient truncated
      toward zero. */
  function TruncDiv(a: int, b: int): (q: int)
    requires b > 0
    ensures a >= 0 ==> q * b <= a < q * b + b
    ensures a < 0 ==> q <= 0 && q * b - b < a <= q * b
  {
    if a >= 0 then a / b else -((-a) / b)
  }

  /** One target side: `max(1, int(side * percent / 100))`. */
  function ScaledSide(side: int, percent: int): (n: int)
    ensures n >= 1
    ensures side * percent >= 100 ==> n == side * percent / 100
    ensures side * percent < 100 ==> n == 1
  {
    var t := TruncDiv(side * percent, 100);
    if t > 1 then t else 1
  }

  /** The `(width, height)` that `resize_scale` asks the resampler for. */
  function ResizeTarget(m: Model, percent: int): (wh: (int, int))
    requires HasImage(m)
    ensures wh.0 >= 1 && wh.1 >= 1
    ensures wh.0 == ScaledSide(m.current.value.width, percent)
    ensures wh.1 == ScaledSide(m.current.value.height, percent)
  {
    var img := m.current.value;
    (ScaledSide(img.width, percent), ScaledSide(img.height, percent))
  }

  /** At 100 percent the target is the image's own size, down to one pixel. */
  lemma ResizeAtFullScaleKeepsSize(m: Model)
    requires HasImage(m) && m.current.value.width >= 1 && m.current.value.height >= 1
    ensures ResizeTarget(m, 100) == (m.current.value.width, m.current.value.height)
  {
  }

  function ResizeScale(f: Filters, m: Model, percent: int): Img
    requires HasImage(m)
  {
    var wh := ResizeTarget(m, percent);
    f.resize(m.current.value, wh.0, wh.1)
  }
}

=== FILE: images.dfy ===
/** Pixel images as immutable values, and the OpenCV kernels the editor calls
    on them. The kernels are supplied by the caller as plain functions, so
    nothing is known about them beyond their being deterministic and pure. */
module Images {

  /** A NumPy image array: `shape[:2]` is `(height, width)`, and `samples`
      holds the channel samples in row-major order. Copies are the identity
      on values of this type. */
  datatype Img = Img(height: nat, width: nat, channels: nat, samples: seq<int>)

  /** The three `cv2.rotate` codes the editor uses. */
  datatype RotateCode = Clockwise90 | Rotate180 | CounterClockwise90

  /** The OpenCV kernels, as uninterpreted pure functions. */
  datatype Filters = Filters(
    bgrToGray: Img -> Img,            // cv2.cvtColor(_, COLOR_BGR2GRAY)
    grayToBgr: Img -> Img,            // cv2.cvtColor(_, COLOR_GRAY2BGR)
    gaussianBlur: (Img, int) -> Img,  // cv2.GaussianBlur(_, (k, k), 0), k the kernel side
    canny: (Img, int, int) -> Img,    // cv2.Canny(_, low, high)
    rotate: (Img, RotateCode) -> Img, // cv2.rotate(_, code)
    flip: (Img, int) -> Img,          // cv2.flip(_, flipCode)
    resize: (Img, int, int) -> Img)   // cv2.resize(_, (w, h), INTER_AREA)
}

=== FILE: options.dfy ===
/** Optional values and fallible results: `Option` stands for Python's `None`
    or a value, `Result` for an operation that either succeeds or raises. */
module Options {

  datatype Option<+T> = None | Some(value: T)

  datatype Result<+T> = Ok(value: T) | Err(message: string)
}

=== FILE: sessions.dfy ===
/** Runs of user actions over the editor session, and the properties that
    relate several handler calls: the invariant every run keeps, the blur
    session recomputing from its base whatever path of +/- steps was taken,
    the one-push guards, and undo/redo reversing a commit. */
module EditorRuns {
  import opened Options
  import opened Images
  import HistoryManager
  import ImageModel
  import opened Editor

  /** The user actions whose handlers are complete in the source. Save, exit
      and the brightness, contrast, scale, rotate, flip and reset buttons are
      not among them. */
  datatype Event =
    | Open(path: string, read: Option<Img>)
    | Undo
    | Redo
    | Grayscale
    | Edges
    | BlurUp
    | BlurDown

  function Step(f: Filters, s: Session, e: Event): (r: Session)
    requires Consistent(f, s)
    ensures Consistent(f, r)
    ensures r.history.maxStates == s.history.maxStates
    ensures !e.Open? ==> r.model.original == s.model.original && r.model.filepath == s.model.filepath
  {
    match e
    case Open(path, read) => OpenImage(s, path, read)
    case Undo => UndoAction(s)
    case Redo => RedoAction(s)
    case Grayscale => ApplyGrayscale(f, s)
    case Edges => ApplyEdgesOnce(f, s)
    case BlurUp => IncreaseBlur(f, s)
    case BlurDown => DecreaseBlur(f, s)
  }

  predicate NoOpen(es: seq<Event>)
  {
    forall i :: 0 <= i < |es| ==> !es[i].Open?
  }

  /** The session after the actions `es`, taken in order. */
  function Run(f: Filters, s: Session, es: seq<Event>): (r: Session)
    requires Consistent(f, s)
    ensures Consistent(f, r)
    ensures r.history.maxStates == s.history.maxStates
    ensures NoOpen(es) ==> r.model.original == s.model.original && r.model.filepath == s.model.filepath
    decreases |es|
  {
    if |es| == 0 then s else Run(f, Step(f, s, es[0]), es[1..])
  }

  /** Every session the editor can reach keeps the invariant. */
  lemma ReachableSessionsAreConsistent(f: Filters, es: seq<Event>)
    ensures Consistent(f, Run(f, Init(), es))
    ensures ActiveTools(Run(f, Init(), es)) <= 1
    ensures |Run(f, Init(), es).history.undo| <= HistoryManager.DefaultMaxStates
  {
  }

  // ---- the blur session ----

  predicate BlurPresses(es: seq<Event>)
  {
    forall i :: 0 <= i < |es| ==> es[i].BlurUp? || es[i].BlurDown?
  }

  /** The blur level after the presses `es` from level `n`: up one, or down
      one but not below 0. */
  function BlurLevelAfter(n: int, es: seq<Event>): int
    decreases |es|
  {
    if |es| == 0 then n
    else BlurLevelAfter(if es[0].BlurUp? then n + 1 else if n == 0 then 0 else n - 1, es[1..])
  }

  /** How many presses in `es` leave level 0 upwards, starting from `n`. */
  function Departures(n: int, es: seq<Event>): nat
    decreases |es|
  {
    if |es| == 0 then 0
    else
      var next := if es[0].BlurUp? then n + 1 else if n == 0 then 0 else n - 1;
      (if es[0].BlurUp? && n == 0 then 1 else 0) + Departures(next, es[1..])
  }

  function PushTimes(h: HistoryManager.History, img: Img, k: nat): HistoryManager.History
    decreases k
  {
    if k == 0 then h else PushTimes(HistoryManager.Push(h, Some(img)), img, k - 1)
  }

  /** A session shows `img` at blur level 0 and uses `img` as its blur base
      above it. */
  predicate AnchoredAt(s: Session, img: Img)
  {
    && (s.blurLevel == 0 ==> s.model.current == Some(img))
    && (s.blurLevel > 0 ==> s.blurBase == Some(img))
  }

  lemma {:induction false} BlurPressesStayAnchored(f: Filters, s: Session, img: Img, es: seq<Event>)
    requires Consistent(f, s) && AnchoredAt(s, img) && BlurPresses(es)
    ensures AnchoredAt(Run(f, s, es), img)
    ensures Run(f, s, es).blurLevel == BlurLevelAfter(s.blurLevel, es)
    ensures Run(f, s, es).history == PushTimes(s.history, img, Departures(s.blurLevel, es))
    decreases |es|
  {
    if |es| > 0 {
      var s' := Step(f, s, es[0]);
      assert AnchoredAt(s', img);
      assert BlurPresses(es[1..]) by {
        forall i | 0 <= i < |es[1..]| ensures es[1..][i].BlurUp? || es[1..][i].BlurDown? {
          assert es[1..][i] == es[i + 1];
        }
      }
      BlurPressesStayAnchored(f, s', img, es[1..]);
    }
  }

  /** From a session with image `img` and no blur under way, any sequence of
      blur presses ending at level `n > 0` shows exactly `img` blurred with
      kernel side `2n + 1`, and one ending at level 0 shows `img` itself. The
      history gains `img` once for each time the level left 0. */
  lemma BlurSessionRecomputesFromBase(f: Filters, s: Session, es: seq<Event>)
    requires Consistent(f, s) && ImageModel.HasImage(s.model) && s.blurLevel == 0 && BlurPresses(es)
    ensures var r := Run(f, s, es); var n := BlurLevelAfter(0, es);
      && r.blurLevel == n
      && (n == 0 ==> r.model.current == s.model.current && r.blurBase.None?)
      && (n > 0 ==> r.blurBase == s.model.current)
      && (n > 0 ==> r.model.current == Some(f.gaussianBlur(s.model.current.value, BlurKernelSide(n))))
      && r.history == PushTimes(s.history, s.model.current.value, Departures(0, es))
  {
    BlurPressesStayAnchored(f, s, s.model.current.value, es);
  }

  /** Two paths of blur presses that end at the same level show the same
      image. */
  lemma BlurPathIndependent(f: Filters, s: Session, es1: seq<Event>, es2: seq<Event>)
    requires Consistent(f, s) && ImageModel.HasImage(s.model) && s.blurLevel == 0
    requires BlurPresses(es1) && BlurPresses(es2)
    requires BlurLevelAfter(0, es1) == BlurLevelAfter(0, es2)
    ensures Run(f, s, es1).model.current == Run(f, s, es2).model.current
    ensures Run(f, s, es1).blurBase == Run(f, s, es2).blurBase
  {
    BlurSessionRecomputesFromBase(f, s, es1);
    BlurSessionRecomputesFromBase(f, s, es2);
  }

  /** Three steps up and three down show the pre-session image again, and
      the whole excursion cost a single history entry. */
  lemma BlurUpThreeDownThreeRestoresImage(f: Filters, s: Session)
    requires Consistent(f, s) && ImageModel.HasImage(s.model) && s.blurLevel == 0
    ensures Run(f, s, [BlurUp, BlurUp, BlurUp, BlurDown, BlurDown, BlurDown]).model.current == s.model.current
    ensures Run(f, s, [BlurUp, BlurUp, BlurUp, BlurDown, BlurDown, BlurDown]).history
         == HistoryManager.Push(s.history, s.model.current)
  {
    var es := [BlurUp, BlurUp, BlurUp, BlurDown, BlurDown, BlurDown];
    assert BlurLevelAfter(0, es) == 0;
    assert Departures(0, es) == 1;
    BlurSessionRecomputesFromBase(f, s, es);
  }

  // ---- one-push guards ----

  /** A second edge detection in a row does nothing, so two calls push once. */
  lemma EdgesTwiceIsEdgesOnce(f: Filters, s: Session)
    ensures ApplyEdgesOnce(f, ApplyEdgesOnce(f, s)) == ApplyEdgesOnce(f, s)
  {
  }

  /** Opening the brightness/contrast session twice is opening it once. */
  lemma EnsureBcSessionIdempotent(s: Session)
    requires s.bcBase.None? ==> ImageModel.HasImage(s.model)
    ensures EnsureBcSession(EnsureBcSession(s)) == EnsureBcSession(s)
  {
  }

  /** The brightness/contrast image ignores whatever was shown before:
      re-applying changes nothing, and two sessions that agree on base and
      levels show the same image. */
  lemma BcRecomputesFromBase(s: Session, t: Session)
    requires s.bcBase.Some? && t.bcBase == s.bcBase
    requires t.brightnessLevel == s.brightnessLevel && t.contrastLevel == s.contrastLevel
    ensures ApplyBrightnessContrast(ApplyBrightnessContrast(s)) == ApplyBrightnessContrast(s)
    ensures ApplyBrightnessContrast(s).model.current == ApplyBrightnessContrast(t).model.current
  {
  }

  /** The brightness/contrast helpers keep the invariant too. */
  lemma BcHelpersKeepConsistent(f: Filters, s: Session)
    requires Consistent(f, s)
    requires s.bcBase.None? ==> ImageModel.HasImage(s.model)
    ensures Consistent(f, EnsureBcSession(s))
    ensures Consistent(f, ApplyBrightnessContrast(s))
  {
  }

  /** Starting a brightness/contrast session in the middle of a blur session
      ends the blur session and adds exactly one history entry. */
  lemma BcSessionCancelsBlurSession(f: Filters, s: Session)
    requires Consistent(f, s) && ImageModel.HasImage(s.model) && s.blurLevel > 0
    ensures EnsureBcSession(s).blurLevel == 0 && EnsureBcSession(s).blurBase.None?
    ensures EnsureBcSession(s).history == HistoryManager.Push(s.history, s.model.current)
  {
  }

  // ---- undo and redo across handlers ----

  /** Undo after a grayscale commit shows the pre-edit image again, and redo
      then shows the grayscale image. */
  lemma GrayscaleUndoRedo(f: Filters, s: Session)
    requires ImageModel.HasImage(s.model) && s.history.maxStates >= 1
    ensures UndoAction(ApplyGrayscale(f, s)).model.current == s.model.current
    ensures RedoAction(UndoAction(ApplyGrayscale(f, s))).model.current == Some(ImageModel.ToGrayscale(f, s.model))
  {
  }

  /** Undo followed by redo gives back the image model and both history
      stacks exactly; only the tool states end at rest. */
  lemma UndoActionThenRedoAction(s: Session)
    requires ImageModel.HasImage(s.model) && HistoryManager.CanUndo(s.history)
    ensures RedoAction(UndoAction(s)).model == s.model
    ensures RedoAction(UndoAction(s)).history == s.history
    ensures ToolsAtRest(RedoAction(UndoAction(s)))
  {
    HistoryManager.UndoThenRedo(s.history, s.model.current.value);
  }

  /** Redo followed by undo gives back the image model and both stacks. */
  lemma RedoActionThenUndoAction(s: Session)
    requires ImageModel.HasImage(s.model) && HistoryManager.CanRedo(s.history)
    ensures UndoAction(RedoAction(s)).model == s.model
    ensures UndoAction(RedoAction(s)).history == s.history
    ensures ToolsAtRest(UndoAction(RedoAction(s)))
  {
    HistoryManager.RedoThenUndo(s.history, s.model.current.value);
  }

  /** A new commit after an undo leaves nothing to redo. */
  lemma CommitAfterUndoClearsRedo(f: Filters, s: Session)
    requires ImageModel.HasImage(s.model) && HistoryManager.CanUndo(s.history)
    ensures !HistoryManager.CanRedo(ApplyGrayscale(f, UndoAction(s)).history)
  {
  }

  // ---- reset to original ----

  /** After a successful open and any actions that do not open another file,
      resetting the model brings back the image as it was read. */
  lemma ResetRestoresLoadedImage(f: Filters, s: Session, path: string, img: Img, es: seq<Event>)
    requires Consistent(f, s) && path != "" && NoOpen(es)
    ensures ImageModel.ResetToOriginal(Run(f, OpenImage(s, path, Some(img)), es).model).current == Some(img)
    ensures Run(f, OpenImage(s, path, Some(img)), es).model.filepath == Some(path)
  {
  }
}

=== FILE: tone.dfy ===
/** The brightness/contrast adjustment of the editor's live session: the
    mapping from button levels to parameters, and the per-sample formula
    `clip((p - 128) * contrast + 128 + brightness, 0, 255)` followed by the
    truncating conversion to 8-bit samples. The contrast factor is held as an
    integer percentage, so the arithmetic is exact. */
module Tone {
  import opened Images

  function Clamp(x: int, lo: int, hi: int): (y: int)
    requires lo <= hi
    ensures lo <= y <= hi
    ensures lo <= x <= hi ==> y == x
  {
    if x < lo then lo else if x > hi then hi else x
  }

  /** The brightness offset: 12 per brightness step. */
  function BrightnessOffset(level: int): int
  {
    12 * level
  }

  /** The contrast factor `1.0 + 0.08 * level` kept within `[0.2, 4.0]`,
      as a percentage. */
  function ContrastPercent(level: int): (pct: int)
    ensures 20 <= pct <= 400
    ensures 20 <= 100 + 8 * level <= 400 ==> pct == 100 + 8 * level
    ensures 100 + 8 * level < 20 ==> pct == 20
    ensures 400 < 100 + 8 * level ==> pct == 400
  {
    Clamp(100 + 8 * level, 20, 400)
  }

  /** One output sample. Division by the positive constant 100 rounds down,
      which is what the clip-then-truncate of the float formula does. */
  function AdjustSample(p: int, brightness: int, contrastPct: int): (q: int)
    ensures 0 <= q <= 255
  {
    Clamp((p - 128) * contrastPct / 100 + 128 + brightness, 0, 255)
  }

  function ClipReal(v: real): real
  {
    if v < 0.0 then 0.0 else if v > 255.0 then 255.0 else v
  }

  /** The integer sample function is the real-valued formula, clipped to
      `[0, 255]` and truncated to an integer. */
  lemma AdjustSampleIsClippedFormula(p: int, brightness: int, contrastPct: int)
    ensures AdjustSample(p, brightness, contrastPct)
         == ClipReal((p - 128) as real * (contrastPct as real / 100.0) + 128.0 + brightness as real).Floor
  {
    var x := (p - 128) * contrastPct;
    var q := x / 100;
    var v := (p - 128) as real * (contrastPct as real / 100.0) + 128.0 + brightness as real;
    assert (p - 128) as real * (contrastPct as real / 100.0) == x as real / 100.0;
    assert x == q * 100 + x % 100 && 0 <= x % 100 < 100;
    assert q as real <= x as real / 100.0 < q as real + 1.0;
    var n := q + 128 + brightness;
    assert n as real <= v < n as real + 1.0;
  }

  /** The image `_apply_brightness_contrast` produces from the session base:
      every sample adjusted independently, shape unchanged. */
  function AdjustImage(base: Img, brightnessLevel: int, contrastLevel: int): (out: Img)
    ensures out.height == base.height && out.width == base.width
    ensures out.channels == base.channels
    ensures |out.samples| == |base.samples|
    ensures forall i :: 0 <= i < |out.samples| ==> 0 <= out.samples[i] <= 255
    ensures forall i :: 0 <= i < |out.samples| ==>
      out.samples[i] == AdjustSample(base.samples[i], BrightnessOffset(brightnessLevel), ContrastPercent(contrastLevel))
  {
    var b := BrightnessOffset(brightnessLevel);
    var c := ContrastPercent(contrastLevel);
    base.(samples := seq(|base.samples|, i requires 0 <= i < |base.samples| => AdjustSample(base.samples[i], b, c)))
  }

  /** Two brightness steps on mid-gray: 128 + 24. */
  lemma BrightnessTwoStepsOnMidGray()
    ensures AdjustSample(128, BrightnessOffset(2), ContrastPercent(0)) == 152
  {
  }

  /** Five contrast steps give the factor 1.4; 200 maps to 228.8, truncated. */
  lemma ContrastFiveStepsTruncates()
    ensures ContrastPercent(5) == 140
    ensures AdjustSample(200, BrightnessOffset(0), ContrastPercent(5)) == 228
  {
  }
}
